=== FILE: README.md ===
# Arrow-maze solver: graph construction and reachability

This project is a Dafny model of the core of an arrow-maze solver.

The puzzle is played on a rectangular grid. Every cell but one holds an arrow with three attributes:
- a colour (red or blue);
- one of eight compass headings;
- a kind: *plain*, or *circle* (a reflector).

The remaining cell is the target. A token starts in the top-left cell. From an arrow it may hop to any cell of a different colour on the ray in the arrow's heading. A circle arrow reverses the direction of travel. The solver finds a sequence of hops to the goal, or reports that none exists.

The solver turns the grid into a directed graph. Every cell gets two nodes: a *forward* node and a *backward* node. Two passes of ray walks then emit the edges:
- The forward pass goes from each arrow's forward node. The ray follows the heading, reversed for a circle. It lands in forward nodes, or in backward nodes for a circle.
- The backward pass goes from each arrow's backward node. The ray runs against the heading, or along it for a circle. It lands in backward nodes, or in forward nodes for a circle.

The solver then searches from the forward node of (0, 0) for either node of the goal cell. It reports the walk as 1-based coordinates.

Modules:
- `Maze` (`maze.dfy`) covers the helpers in `src/lib.rs`:
  - coordinates and their addition;
  - the closed enumerations `Color`, `Circle` and `Direction` with their token parsers;
  - the `Arrow` record, its predicates and its default value;
  - the grid queries `in_bounds`, `start` and `target`.
- `Graph` (`graph.dfy`) covers the builder in `src/graph.rs`:
  - the direction table `get_vel`;
  - the node table: index maps between cells and node indices in both orientations;
  - the per-pass step vector and destination orientation;
  - the edge relation as a pure predicate `Edge`;
  - the ray walk of one cell (`CellEdges`), one whole pass (`PassEdges`) and both passes (`BuildEdges`), each proved to emit exactly `Edge`.
- `Search` (`search.dfy`) stands in for the zero-cost best-first search. It is a breadth-first search. Its contract is the only thing the original promises: it returns a valid walk from the start to a goal, or an empty result exactly when no goal is reachable.
- `Solver` (`solver.dfy`) is `Solver::solve`. It wires the pieces together and maps the path back through the node table. It also proves three small 1 x 2 grids as concrete results: a forward hop, a dead end and a circle reversal.
- `Wrappers` (`wrappers.dfy`) holds the `Option` type. It replaces the parsers' panics.

Nodes are modelled as `(coordinate, orientation)` pairs. The solver's four hash maps between cells and petgraph node indices are exactly this bijection, and `CreateNodes` proves it. The cell is allocated the indices `2k` and `2k + 1` in row-major order. `Resolve` proves that looking up the forward coordinates first and then the backward ones always returns the node's own cell.

Two behaviours of the code are modelled as written:
- The goal is `Input::target()`, the bottom-right cell `(rows - 1, cols - 1)`. It is not whichever cell carries the `Target` flag (`TargetCoord`, `TargetIgnoresFlag`). The code searches for the corner, so the model follows the code.
- The comments at `src/graph.rs:80` and `src/graph.rs:126` say that an edge is made to cells of the *same* colour. The code makes one when the colours *differ* (`!=`), and the model follows the code.

Well-formedness is stated explicitly as `WellFormed`:
- The grid is non-empty and rectangular, because `grid[0]` is read.
- Every arrow's `loc` is its own position, because the node maps are keyed by `loc` but looked up by walked coordinate.

## Model

| member | source | states |
|---|---|---|
| Maze.StepAlongRay | src/lib.rs:9-11 | componentwise `+=` of the step moves a ray from its k-th cell to its (k+1)-th, and the 0-th cell is the origin |
| Maze.ParseColor | src/lib.rs:23-29 | `Color::from_str` accepts exactly the tokens of red and blue, returns that colour, never returns `Clear`, and rejects everything else (the panic) |
| Maze.ParseCircle | src/lib.rs:44-50 | `Circle::from_str` accepts exactly "C" (circle) and "N" (plain), never returns `Target`, and rejects everything else |
| Maze.ParseDirection | src/lib.rs:70-82 | `Direction::from_str` is the exact inverse of the eight heading tokens and rejects any other token |
| Maze.TokenRoundTrip | src/lib.rs:20-83 | printing a value as its input token and parsing it back gives the same value for every colour but `Clear`, every kind but `Target` and every heading; the target line's placeholder "X" is rejected |
| Maze.Arrow.IsCircle | src/lib.rs:105-107 | an arrow is a circle exactly when its kind is neither the target nor plain |
| Maze.Arrow.IsTarget | src/lib.rs:109-111 | an arrow is the target exactly when its kind is neither circle nor plain |
| Maze.ArrowKindsExclusive | src/lib.rs:105-111 | no arrow is both a circle and the target, and a `False` arrow is neither |
| Maze.DefaultArrow | src/lib.rs:114-122 | the default arrow is a target arrow and not a circle |
| Maze.InBounds | src/lib.rs:161-166 | `in_bounds` holds exactly for the coordinates that index a cell of a rectangular grid; on an empty grid it is false, because the row test comes before `grid[0]` |
| Maze.StartCoord | src/lib.rs:168-170 | the start is a cell of the grid and precedes every cell in both coordinates, i.e. it is the top-left corner |
| Maze.TargetCoord | src/lib.rs:172-177 | the goal is a cell of the grid and follows every cell in both coordinates, i.e. it is the bottom-right corner |
| Maze.TargetIgnoresFlag | src/lib.rs:172-177 | the goal cell depends only on the grid's dimensions, not on where the `Target` flag is |
| Graph.Velocity | src/graph.rs:170-181 | every heading's step has both components in {-1, 0, 1} and is non-zero |
| Graph.VelocityFollowsName | src/graph.rs:170-181 | a step has row -1 exactly when the heading's name contains N, row +1 for S, column +1 for E and column -1 for W |
| Graph.VelocityInjective | src/graph.rs:170-181 | distinct headings have distinct steps |
| Graph.VelocityOnto | src/graph.rs:170-181 | every non-zero unit vector is the step of some heading, so the table is a bijection onto the eight unit vectors |
| Graph.OppositeVelocity | src/graph.rs:66-69 | negating a step gives the step of the opposite compass heading |
| Graph.Flip | src/graph.rs:55-61 | switching map always changes the orientation |
| Graph.PassVelocity | src/graph.rs:63-69 | the step walked in a pass is a unit vector, either the heading's step or its negation, and it is the heading's step exactly when the pass is forward for a plain arrow or backward for a circle (the backward pass's negation at `src/graph.rs:109-117` included) |
| Graph.PassVelocityHeading | src/graph.rs:61-117 | net effect of the negations: forward pass walks the heading (opposite for a circle), backward pass the opposite heading (the heading for a circle), and the backward ray is always the forward ray reversed |
| Graph.DestOrientation | src/graph.rs:55-61 | a hop lands in the pass's own orientation exactly when the arrow is not a circle |
| Graph.OnRayBySteps | src/graph.rs:76-86 | a cell is one or more steps along the ray exactly when its computed step count is at least 1 and that many steps reach it |
| Graph.RayExitIsFinal | src/graph.rs:77 | once a ray that started inside the grid is out of bounds, every later step is out of bounds too, so stopping the walk there loses no cell |
| Graph.RayLength | src/graph.rs:76-86 | an in-bounds cell k steps along a ray lies fewer than rows (vertical move) or cols (horizontal move) steps away, so every walk terminates |
| Graph.Edge | src/graph.rs:45-134 | the edge relation of both passes: an edge never joins a cell to itself, starts in the grid, and keeps the pass's orientation exactly when the source arrow is not a circle |
| Graph.NoEdgeFromTarget | src/graph.rs:50-53 | neither node of a target cell is the source of any edge |
| Graph.DefaultCellIsInert | src/lib.rs:114-122 | a cell still holding the default arrow starts no edge, in either orientation |
| Graph.EdgeJoinsDifferentColors | src/graph.rs:80-83 | every edge joins two cells of different colour |
| Graph.ForwardEdgeAlongRay | src/graph.rs:45-88 | from a non-target arrow's forward node there is an edge to every differently coloured in-bounds cell k >= 1 steps along the heading (reversed for a circle), not only the first; it lands in a backward node exactly for a circle |
| Graph.BackwardEdgeAlongRay | src/graph.rs:90-134 | from a non-target arrow's backward node there is an edge to every differently coloured in-bounds cell k >= 1 steps against the heading (along it for a circle); it lands in a forward node exactly for a circle |
| Graph.EmittedStep | src/graph.rs:77-86 | looking at the k-th cell of the ray adds exactly the edge to that cell, and only when its colour differs |
| Graph.EmittedComplete | src/graph.rs:76-86 | when the walk leaves the grid, the edges emitted so far are exactly the edges out of the arrow's node |
| Graph.CellEdges | src/graph.rs:48-86 | one cell's turn in a pass emits exactly the edges of the relation out of that cell's node in that orientation (none for the target) |
| Graph.PassEdges | src/graph.rs:46-88 | a full pass in row-major order emits exactly the edges out of all nodes of that pass's orientation |
| Graph.BuildEdges | src/graph.rs:45-134 | the two passes together emit exactly the edge relation; every emitted edge joins in-bounds cells of different colour and never leaves the target |
| Graph.InsertKeepsInverse | src/graph.rs:36-40 | inserting a fresh cell under a fresh index keeps a node map and its coordinate map mutually inverse |
| Graph.CreateNodes | src/graph.rs:32-41 | each orientation's node map is total over the grid and inverted by its coordinate map; the two index sets are disjoint and together are exactly 0 .. 2 * rows * cols |
| Graph.Resolve | src/graph.rs:157-164 | looking a node's index up in the forward coordinates first and then the backward ones returns the node's own cell |
| Search.ClosedSetHoldsPath | src/graph.rs:145-153 | a set that holds a walk's first node and is closed under the edges holds its last node, which is why an exhausted search proves unreachability |
| Search.ExtendWalk | src/graph.rs:145-153 | a walk followed by an edge out of its last node is a walk |
| Search.Expand | src/graph.rs:145-153 | one expansion either returns a walk from the start to a goal, or records a walk to every successor of the node, keeping all recorded walks valid |
| Search.FindPath | src/graph.rs:145-153 | the search returns a walk along the edges from the start to a goal, and returns the empty sequence exactly when no goal is reachable |
| Solver.IsGoal | src/graph.rs:138-148 | on a grid, a node is a goal exactly when its cell is in bounds and follows every cell in both coordinates, in either orientation (`target_f` or `target_b`) |
| Solver.Shifted | src/graph.rs:164 | the report has one coordinate per path node |
| Solver.ShiftedUndo | src/graph.rs:155-166 | subtracting (1, 1) from each reported coordinate gives back that node's cell, so two walks have the same report exactly when they visit the same cells in the same order |
| Solver.EdgeListPaths | src/graph.rs:136-153 | walks over the built edge list are exactly the hop paths, and searching for the goal cell's two nodes decides whether a goal is reachable |
| Solver.HopPathInBounds | src/graph.rs:157-164 | every node of a hop path from the start lies in the grid, so mapping it back to coordinates never fails |
| Solver.ReportPath | src/graph.rs:155-166 | mapping the found nodes back through the node table and adding (1, 1) reports each node's own cell, 1-based |
| Solver.SolveOutcome | src/graph.rs:136-166 | the search's result, restated about the grid: an empty report exactly when no goal is reachable, otherwise a shifted hop path from (1, 1) to (rows, cols) |
| Solver.Solve | src/graph.rs:19-167 | the answer is empty exactly when no goal node is reachable from the start's forward node; otherwise it is a hop path from the start to a node of the bottom-right cell, each cell shifted by (1, 1), so it begins at (1, 1) and ends at (rows, cols) |
| Solver.SolveForwardHop | src/graph.rs:45-88 | a 1 x 2 grid with a red plain east arrow beside the target yields exactly (1 1) (1 2) |
| Solver.DeadEndUnreachable | src/graph.rs:45-88 | in a 1 x 2 grid whose first arrow's forward ray does not run east, no hop path from the start reaches the goal, since the only other cell is the target and it starts no ray |
| Solver.SolveDeadEnd | src/graph.rs:76-86 | a 1 x 2 grid with a red plain west arrow beside the target yields the empty answer: its forward ray leaves the grid at once, and its only edge starts at its backward node, which the start cannot reach |
| Solver.CircleMissesForwardTarget | src/graph.rs:57-69 | with a red circle west arrow beside the target, no hop path from the start ends at the target's forward node |
| Solver.SolveCircleReversal | src/graph.rs:136-153 | the circle grid still yields (1 1) (1 2), because the goal is also accepted at the target's backward node |

## Left out

- `Input::from_stdin` and `read_rows_cols` (`src/lib.rs:131-155`, `src/lib.rs:180-184`) read standard input with `scan!`. This is I/O, so it is not modelled. The grid is a parameter, and `WellFormed` states what the reader guarantees.
- `Arrow::new`, `Input::from_grid` and `Solver::new` only copy their arguments into a record. They have no logic.
- `src/bin/main.rs` prints the path joined by spaces. The `Display` formatting of `Coord` is derived by a macro. Both are output formatting, so neither is modelled.
- The token parsers abort the process with `panic!` on a bad token. Here they return `None`, and the caller's abort is not modelled.
- petgraph's `astar` is a foreign library. Which of several valid paths it returns is not modelled; the node indices it works on are the ones `Graph::add_node` hands out, and those are modelled by `CreateNodes`.
  The search is replaced by a breadth-first search with the same observable contract: a valid walk, or nothing. Hop-count minimality is not claimed, because the original does not guarantee it either: every edge weighs 0.
- Duplicate edges and the edge weights (all 0) are not represented. The edge list is compared with the relation as a set.
- Graph.CreateNodes: petgraph's default graph (`Graph::new()`, `src/graph.rs:22`) numbers nodes and edges with `u32` indices. `add_node` and `add_edge` panic once about 2^32 indices are used. The model keeps the count as an unbounded `nat` and claims `count == 2 * (rows * cols)` for every well-formed grid. So it ignores this capacity: grids of 2^31 cells or more, or with about 2^32 edges, abort in the original.
- `isize`/`usize` widths are not modelled, because every coordinate is bounded by the grid's dimensions. The casts `as usize` are applied only to coordinates that `in_bounds` has already accepted.
- Solver.Solve: the precondition `WellFormed` rules out these grids:
  - the empty grid: the original panics reading `grid[0]` (`src/graph.rs:43`);
  - grids whose row 0 is empty, rectangular or not: no pass runs, and the original panics on the missing key `(0, 0)` at `src/graph.rs:138`;
  - rows shorter than row 0: the original panics at `grid[i][j]` (`src/graph.rs:48`), or earlier at `src/graph.rs:78` when a ray reaches the missing cell first;
  - later rows longer than a non-empty row 0: the original does not panic. `in_bounds`, both passes and `target()` all use row 0's width, so it answers for the grid cut to that width. The extra cells get nodes but are never the source or destination of a ray;
  - grids whose `loc` fields disagree with their positions: the original builds different maps.

=== FILE: graph.dfy ===
/** The graph builder: the direction table, the two node identities of
    every cell, and the ray walks of the forward and backward passes that
    emit the edges. Nodes are `(coordinate, orientation)` pairs; the index
    maps of the original are modelled separately by `CreateNodes`. */
module Graph {
  import opened Maze

  /** A step of one cell in one of the eight compass headings. */
  predicate IsUnit(v: Coord)
  {
    && -1 <= v.row <= 1
    && -1 <= v.col <= 1
    && v != Coord(0, 0)
  }

  /** `get_vel`: the step vector of a heading (rows grow southwards,
      columns eastwards). */
  function Velocity(d: Direction): (v: Coord)
    ensures IsUnit(v)
  {
    match d
    case N => Coord(-1, 0)
    case E => Coord(0, 1)
    case S => Coord(1, 0)
    case W => Coord(0, -1)
    case NE => Coord(-1, 1)
    case SE => Coord(1, 1)
    case SW => Coord(1, -1)
    case NW => Coord(-1, -1)
  }

  /** The table agrees with the headings' names: a step goes north exactly
      when the name holds an `N`, south for `S`, east for `E`, west for `W`. */
  lemma VelocityFollowsName(d: Direction)
    ensures Velocity(d).row == -1 <==> 'N' in DirectionToken(d)
    ensures Velocity(d).row == 1 <==> 'S' in DirectionToken(d)
    ensures Velocity(d).col == 1 <==> 'E' in DirectionToken(d)
    ensures Velocity(d).col == -1 <==> 'W' in DirectionToken(d)
  {
    match d
    case N => assert DirectionToken(d) == ['N'];
    case E => assert DirectionToken(d) == ['E'];
    case S => assert DirectionToken(d) == ['S'];
    case W => assert DirectionToken(d) == ['W'];
    case NE => assert DirectionToken(d) == ['N', 'E'];
    case SE => assert DirectionToken(d) == ['S', 'E'];
    case SW => assert DirectionToken(d) == ['S', 'W'];
    case NW => assert DirectionToken(d) == ['N', 'W'];
  }

  /** Distinct headings have distinct steps. */
  lemma VelocityInjective(d1: Direction, d2: Direction)
    ensures Velocity(d1) == Velocity(d2) ==> d1 == d2
  {
  }

  /** Every unit step is the step of some heading: the table is a
      bijection onto the eight unit vectors. */
  lemma VelocityOnto(v: Coord)
    requires IsUnit(v)
    ensures exists d :: Velocity(d) == v
  {
    if v.row == -1 {
      if v.col == -1 { assert Velocity(NW) == v; }
      else if v.col == 0 { assert Velocity(N) == v; }
      else { assert Velocity(NE) == v; }
    } else if v.row == 0 {
      if v.col == -1 { assert Velocity(W) == v; }
      else { assert Velocity(E) == v; }
    } else {
      if v.col == -1 { assert Velocity(SW) == v; }
      else if v.col == 0 { assert Velocity(S) == v; }
      else { assert Velocity(SE) == v; }
    }
  }

  /** The compass heading pointing the other way. */
  function Opposite(d: Direction): Direction
  {
    match d
    case N => S
    case S => N
    case E => W
    case W => E
    case NE => SW
    case SW => NE
    case SE => NW
    case NW => SE
  }

  /** Negating a step (as the solver does for circles and for the backward
      pass) turns it into the step of the opposite heading. */
  lemma OppositeVelocity(d: Direction)
    ensures Velocity(Opposite(d)) == Neg(Velocity(d))
    ensures Opposite(Opposite(d)) == d
  {
  }

  /** The two identities of a cell: before and after a reversal. */
  datatype Orientation = Forward | Backward

  function Flip(o: Orientation): (r: Orientation)
    ensures r != o
  {
    if o == Forward then Backward else Forward
  }

  datatype Node = Node(at: Coord, orient: Orientation)

  /** The step of the ray walked from an arrow in the pass of orientation
      `pass`: the backward pass negates the heading's step, and a circle
      negates it (again). */
  function PassVelocity(a: Arrow, pass: Orientation): (v: Coord)
    ensures IsUnit(v)
    ensures v == Velocity(a.direction) || v == Neg(Velocity(a.direction))
    ensures v == Velocity(a.direction) <==> (pass == Forward <==> !a.IsCircle())
  {
    var base := Velocity(a.direction);
    var passed := if pass == Backward then Neg(base) else base;
    NegInvolution(base);
    assert base != Neg(base);
    assert passed == base <==> pass == Forward;
    if a.IsCircle() then Neg(passed) else passed
  }

  /** The net effect of the two negations: a plain arrow walks its heading
      forwards and the opposite heading backwards; a circle the reverse.
      The backward ray is always the forward ray turned round. */
  lemma PassVelocityHeading(a: Arrow)
    ensures PassVelocity(a, Forward)
      == Velocity(if a.IsCircle() then Opposite(a.direction) else a.direction)
    ensures PassVelocity(a, Backward)
      == Velocity(if a.IsCircle() then a.direction else Opposite(a.direction))
    ensures PassVelocity(a, Backward) == Neg(PassVelocity(a, Forward))
  {
    OppositeVelocity(a.direction);
    NegInvolution(Velocity(a.direction));
  }

  /** The orientation in which the cells reached by the ray are entered:
      a circle flips it, a plain arrow keeps the pass's own. */
  function DestOrientation(a: Arrow, pass: Orientation): (o: Orientation)
    ensures o == pass <==> !a.IsCircle()
  {
    if a.IsCircle() then Flip(pass) else pass
  }

  /** `to` is reached from `from` after one or more steps of `v`. */
  ghost predicate OnRay(from: Coord, v: Coord, to: Coord)
  {
    exists k: nat :: 1 <= k && to == Add(from, Scale(k, v))
  }

  /** The number of steps of the unit vector `v` from `from` to `to`, read
      off a component in which `v` moves. */
  function RaySteps(from: Coord, v: Coord, to: Coord): int
    requires IsUnit(v)
  {
    if v.row != 0 then (to.row - from.row) * v.row else (to.col - from.col) * v.col
  }

  lemma ScaleUnit(k: int, v: Coord)
    requires IsUnit(v)
    ensures Scale(k, v).row == (if v.row == 1 then k else if v.row == -1 then -k else 0)
    ensures Scale(k, v).col == (if v.col == 1 then k else if v.col == -1 then -k else 0)
  {
    if v.row == 1 { assert k * v.row == k; } else if v.row == -1 { assert k * v.row == -k; }
    else { assert k * v.row == 0; }
    if v.col == 1 { assert k * v.col == k; } else if v.col == -1 { assert k * v.col == -k; }
    else { assert k * v.col == 0; }
  }

  /** `RaySteps` recovers the step count of any point of the line. */
  lemma StepsOfScale(from: Coord, v: Coord, k: int)
    requires IsUnit(v)
    ensures RaySteps(from, v, Add(from, Scale(k, v))) == k
  {
    ScaleUnit(k, v);
  }

  /** Being on the ray is decided by the step count alone. */
  lemma OnRayBySteps(from: Coord, v: Coord, to: Coord)
    requires IsUnit(v)
    ensures OnRay(from, v, to)
      <==> RaySteps(from, v, to) >= 1 && to == Add(from, Scale(RaySteps(from, v, to), v))
  {
    if OnRay(from, v, to) {
      var k: nat :| 1 <= k && to == Add(from, Scale(k, v));
      StepsOfScale(from, v, k);
    }
    if RaySteps(from, v, to) >= 1 && to == Add(from, Scale(RaySteps(from, v, to), v)) {
      var k: nat := RaySteps(from, v, to);
      assert 1 <= k && to == Add(from, Scale(k, v));
    }
  }

  /** A ray started inside the grid that has left it never comes back:
      stopping the walk at the first out-of-bounds cell loses nothing. */
  lemma RayExitIsFinal(grid: Grid, from: Coord, v: Coord, k: int, k2: int)
    requires InBounds(grid, from) && IsUnit(v)
    requires 0 <= k <= k2
    requires !InBounds(grid, Add(from, Scale(k, v)))
    ensures !InBounds(grid, Add(from, Scale(k2, v)))
  {
    ScaleUnit(k, v);
    ScaleUnit(k2, v);
  }

  /** An in-bounds point `k` steps along a ray from an in-bounds cell is
      fewer than `rows` steps away when the ray moves vertically and fewer
      than `cols` when it moves horizontally: the walk is finite. */
  lemma RayLength(grid: Grid, from: Coord, v: Coord, k: int)
    requires InBounds(grid, from) && IsUnit(v) && 0 <= k
    requires InBounds(grid, Add(from, Scale(k, v)))
    ensures v.row != 0 ==> k < |grid|
    ensures v.col != 0 ==> k < |grid[0]|
    ensures k < |grid| + |grid[0]|
  {
    ScaleUnit(k, v);
  }

  /** The edge relation of the graph, as a pure definition: the source is
      an in-bounds, non-target cell in either orientation; the destination
      is any in-bounds cell of a different colour one or more steps along
      the pass's ray, entered in the orientation `DestOrientation` picks. */
  ghost predicate Edge(grid: Grid, u: Node, v: Node): (r: bool)
    requires IsGrid(grid)
    ensures r ==> u.at != v.at
    ensures r ==> InBounds(grid, u.at) && (v.orient == u.orient <==> !CellAt(grid, u.at).IsCircle())
  {
    && InBounds(grid, u.at)
    && InBounds(grid, v.at)
    && var a := CellAt(grid, u.at);
    && !a.IsTarget()
    && CellAt(grid, v.at).color != a.color
    && v.orient == DestOrientation(a, u.orient)
    && OnRay(u.at, PassVelocity(a, u.orient), v.at)
  }

  /** The target cell originates no edge, in either orientation. */
  lemma NoEdgeFromTarget(grid: Grid, u: Node, v: Node)
    requires IsGrid(grid) && InBounds(grid, u.at) && CellAt(grid, u.at).IsTarget()
    ensures !Edge(grid, u, v)
  {
  }

  /** A cell the input never overwrote still holds the default arrow,
      which is a target arrow: neither of its nodes starts an edge. */
  lemma DefaultCellIsInert(grid: Grid, c: Coord, o: Orientation, v: Node)
    requires IsGrid(grid) && InBounds(grid, c) && CellAt(grid, c) == DefaultArrow()
    ensures !Edge(grid, Node(c, o), v)
  {
  }

  /** Every edge joins cells of different colour. */
  lemma EdgeJoinsDifferentColors(grid: Grid, u: Node, v: Node)
    requires IsGrid(grid) && Edge(grid, u, v)
    ensures CellAt(grid, u.at).color != CellAt(grid, v.at).color
  {
  }

  /** The forward pass from a non-target arrow at `c`: every differently
      coloured cell `k >= 1` steps along the heading (reversed for a circle)
      is a successor of `c`'s forward node -- not only the first one -- and
      it is entered backward exactly when the arrow is a circle. */
  lemma ForwardEdgeAlongRay(grid: Grid, c: Coord, k: nat)
    requires IsGrid(grid) && InBounds(grid, c) && !CellAt(grid, c).IsTarget()
    requires 1 <= k
    requires var a := CellAt(grid, c);
      var d := Add(c, Scale(k, Velocity(if a.IsCircle() then Opposite(a.direction) else a.direction)));
      InBounds(grid, d) && CellAt(grid, d).color != a.color
    ensures var a := CellAt(grid, c);
      var d := Add(c, Scale(k, Velocity(if a.IsCircle() then Opposite(a.direction) else a.direction)));
      Edge(grid, Node(c, Forward), Node(d, if a.IsCircle() then Backward else Forward))
  {
    var a := CellAt(grid, c);
    PassVelocityHeading(a);
    var d := Add(c, Scale(k, PassVelocity(a, Forward)));
    assert OnRay(c, PassVelocity(a, Forward), d);
  }

  /** The backward pass mirrors the forward one: from `c`'s backward node
      the ray runs against the heading for a plain arrow and along it for a
      circle, and it lands in the forward orientation exactly for a circle. */
  lemma BackwardEdgeAlongRay(grid: Grid, c: Coord, k: nat)
    requires IsGrid(grid) && InBounds(grid, c) && !CellAt(grid, c).IsTarget()
    requires 1 <= k
    requires var a := CellAt(grid, c);
      var d := Add(c, Scale(k, Velocity(if a.IsCircle() then a.direction else Opposite(a.direction))));
      InBounds(grid, d) && CellAt(grid, d).color != a.color
    ensures var a := CellAt(grid, c);
      var d := Add(c, Scale(k, Velocity(if a.IsCircle() then a.direction else Opposite(a.direction))));
      Edge(grid, Node(c, Backward), Node(d, if a.IsCircle() then Forward else Backward))
  {
    var a := CellAt(grid, c);
    PassVelocityHeading(a);
    var d := Add(c, Scale(k, PassVelocity(a, Backward)));
    assert OnRay(c, PassVelocity(a, Backward), d);
  }

  /** `(u, v)` is one of the edges a walk from arrow `a` in pass `pass`
      has emitted once it has looked at the first `k - 1` cells of its ray. */
  predicate Emitted(grid: Grid, a: Arrow, pass: Orientation, k: int, u: Node, v: Node)
    requires IsGrid(grid)
  {
    var vel := PassVelocity(a, pass);
    && u == Node(a.loc, pass)
    && v.orient == DestOrientation(a, pass)
    && InBounds(grid, v.at)
    && CellAt(grid, v.at).color != a.color
    && 1 <= RaySteps(a.loc, vel, v.at) < k
    && v.at == Add(a.loc, Scale(RaySteps(a.loc, vel, v.at), vel))
  }

  /** Looking at the `k`-th cell of the ray adds exactly the edge to that
      cell when its colour differs. */
  lemma EmittedStep(grid: Grid, a: Arrow, pass: Orientation, k: int)
    requires IsGrid(grid) && 1 <= k
    requires InBounds(grid, Add(a.loc, Scale(k, PassVelocity(a, pass))))
    ensures var pos := Add(a.loc, Scale(k, PassVelocity(a, pass)));
      forall u, v :: Emitted(grid, a, pass, k + 1, u, v) <==>
        || Emitted(grid, a, pass, k, u, v)
        || (&& u == Node(a.loc, pass)
            && v == Node(pos, DestOrientation(a, pass))
            && CellAt(grid, pos).color != a.color)
  {
    var vel := PassVelocity(a, pass);
    var pos := Add(a.loc, Scale(k, vel));
    StepsOfScale(a.loc, vel, k);
    forall u, v | Emitted(grid, a, pass, k + 1, u, v) && !Emitted(grid, a, pass, k, u, v)
      ensures u == Node(a.loc, pass) && v == Node(pos, DestOrientation(a, pass))
    {
      assert RaySteps(a.loc, vel, v.at) == k;
    }
    if CellAt(grid, pos).color != a.color {
      assert Emitted(grid, a, pass, k + 1, Node(a.loc, pass), Node(pos, DestOrientation(a, pass)));
    }
  }

  /** Once the walk has left the grid, what it emitted is exactly the set of
      edges out of the arrow's node. */
  lemma EmittedComplete(grid: Grid, a: Arrow, pass: Orientation, k: int)
    requires IsGrid(grid) && InBounds(grid, a.loc) && CellAt(grid, a.loc) == a
    requires !a.IsTarget() && 1 <= k
    requires !InBounds(grid, Add(a.loc, Scale(k, PassVelocity(a, pass))))
    ensures forall u, v :: Emitted(grid, a, pass, k, u, v) <==> u == Node(a.loc, pass) && Edge(grid, u, v)
  {
    var vel := PassVelocity(a, pass);
    forall u, v | Emitted(grid, a, pass, k, u, v)
      ensures u == Node(a.loc, pass) && Edge(grid, u, v)
    {
      OnRayBySteps(a.loc, vel, v.at);
    }
    forall u, v | u == Node(a.loc, pass) && Edge(grid, u, v)
      ensures Emitted(grid, a, pass, k, u, v)
    {
      OnRayBySteps(a.loc, vel, v.at);
      var s := RaySteps(a.loc, vel, v.at);
      if s >= k {
        RayExitIsFinal(grid, a.loc, vel, k, s);
      }
    }
  }

  /** The body of one pass for the cell `(i, j)`: nothing for the target;
      otherwise walk the ray from the cell's `loc` while it stays in bounds
      and emit an edge to every differently coloured cell met. The result is
      exactly the set of edges out of that cell's node of orientation
      `pass`. */
  method CellEdges(grid: Grid, i: int, j: int, pass: Orientation) returns (es: seq<(Node, Node)>)
    requires WellFormed(grid)
    requires 0 <= i < |grid| && 0 <= j < |grid[0]|
    ensures forall u, v :: (u, v) in es <==> u == Node(Coord(i, j), pass) && Edge(grid, u, v)
  {
    es := [];
    var arrow := grid[i][j];
    if arrow.IsTarget() {
      return;
    }
    var dest := DestOrientation(arrow, pass);
    var vel := PassVelocity(arrow, pass);
    var src := Node(arrow.loc, pass);
    assert arrow.loc == Coord(i, j) && InBounds(grid, arrow.loc);
    StepAlongRay(arrow.loc, vel, 0);
    var pos := Add(arrow.loc, vel);
    ghost var k := 1;
    assert pos == Add(arrow.loc, Scale(1, vel));
    while InBounds(grid, pos)
      invariant 1 <= k
      invariant pos == Add(arrow.loc, Scale(k, vel))
      invariant forall u, v :: (u, v) in es <==> Emitted(grid, arrow, pass, k, u, v)
      decreases |grid| + |grid[0]| - k
    {
      RayLength(grid, arrow.loc, vel, k);
      EmittedStep(grid, arrow, pass, k);
      var check := grid[pos.row][pos.col];
      if check.color != arrow.color {
        es := es + [(src, Node(pos, dest))];
      }
      StepAlongRay(arrow.loc, vel, k);
      pos := Add(pos, vel);
      k := k + 1;
    }
    EmittedComplete(grid, arrow, pass, k);
  }

  /** Cell `c` comes before `(i, j)` in row-major order. */
  predicate Before(c: Coord, i: int, j: int)
  {
    c.row < i || (c.row == i && c.col < j)
  }

  /** One full pass over the grid in row-major order: the edges out of
      every node of orientation `pass`, and no others. */
  method PassEdges(grid: Grid, pass: Orientation) returns (es: seq<(Node, Node)>)
    requires WellFormed(grid)
    ensures forall u, v :: (u, v) in es <==> u.orient == pass && Edge(grid, u, v)
  {
    es := [];
    var rows, cols := |grid|, |grid[0]|;
    for i := 0 to rows
      invariant forall u, v :: (u, v) in es <==> u.orient == pass && Before(u.at, i, 0) && Edge(grid, u, v)
    {
      for j := 0 to cols
        invariant forall u, v :: (u, v) in es <==> u.orient == pass && Before(u.at, i, j) && Edge(grid, u, v)
      {
        var more := CellEdges(grid, i, j, pass);
        es := es + more;
      }
    }
  }

  /** The whole edge set: the forward pass followed by the backward pass.
      It is exactly the edge relation, so in particular no edge leaves the
      target and every edge changes colour. */
  method BuildEdges(grid: Grid) returns (edges: seq<(Node, Node)>)
    requires WellFormed(grid)
    ensures forall u, v :: (u, v) in edges <==> Edge(grid, u, v)
    ensures forall e :: e in edges ==>
      && InBounds(grid, e.0.at) && InBounds(grid, e.1.at)
      && !CellAt(grid, e.0.at).IsTarget()
      && CellAt(grid, e.0.at).color != CellAt(grid, e.1.at).color
  {
    var forward := PassEdges(grid, Forward);
    var backward := PassEdges(grid, Backward);
    edges := forward + backward;
    forall e | e in edges
      ensures InBounds(grid, e.0.at) && InBounds(grid, e.1.at)
      ensures !CellAt(grid, e.0.at).IsTarget()
      ensures CellAt(grid, e.0.at).color != CellAt(grid, e.1.at).color
    {
      assert (e.0, e.1) in edges;
    }
  }

  /** The solver's node bookkeeping: for each orientation a map from cell
      to node index and its inverse, and the number of nodes allocated. */
  datatype NodeTable = NodeTable(
    forwardNodes: map<Coord, nat>,
    forwardCoords: map<nat, Coord>,
    backwardNodes: map<Coord, nat>,
    backwardCoords: map<nat, Coord>,
    count: nat)

  /** `inv` undoes `m` and `m` undoes `inv`. */
  predicate Inverse(m: map<Coord, nat>, inv: map<nat, Coord>)
  {
    && (forall c :: c in m ==> m[c] in inv && inv[m[c]] == c)
    && (forall k :: k in inv ==> inv[k] in m && m[inv[k]] == k)
  }

  /** Recording a fresh cell under a fresh index keeps the maps inverse. */
  lemma InsertKeepsInverse(m: map<Coord, nat>, inv: map<nat, Coord>, c: Coord, k: nat)
    requires Inverse(m, inv) && c !in m && k !in inv
    ensures Inverse(m[c := k], inv[k := c])
  {
  }

  /** Each cell has exactly one forward and one backward node; each map is
      total over the grid and inverted by its coordinate map; the index sets
      of the two orientations are disjoint and together are exactly
      `0 .. count`, with `count == 2 * rows * cols`. */
  ghost predicate ValidTable(grid: Grid, t: NodeTable)
    requires IsGrid(grid)
  {
    && (forall c :: c in t.forwardNodes <==> InBounds(grid, c))
    && (forall c :: c in t.backwardNodes <==> InBounds(grid, c))
    && Inverse(t.forwardNodes, t.forwardCoords)
    && Inverse(t.backwardNodes, t.backwardCoords)
    && t.forwardCoords.Keys !! t.backwardCoords.Keys
    && (forall k: nat :: k in t.forwardCoords || k in t.backwardCoords <==> k < t.count)
    && t.count == 2 * (|grid| * |grid[0]|)
  }

  /** Node creation: walk the grid row by row and give each arrow two fresh
      consecutive indices, the forward one first, recorded under its `loc`. */
  method CreateNodes(grid: Grid) returns (t: NodeTable)
    requires WellFormed(grid)
    ensures ValidTable(grid, t)
  {
    var fn: map<Coord, nat> := map[];
    var fc: map<nat, Coord> := map[];
    var bn: map<Coord, nat> := map[];
    var bc: map<nat, Coord> := map[];
    var next: nat := 0;
    var rows, cols := |grid|, |grid[0]|;
    for i := 0 to rows
      invariant next == 2 * (i * cols)
      invariant forall c :: c in fn <==> InBounds(grid, c) && Before(c, i, 0)
      invariant forall c :: c in bn <==> InBounds(grid, c) && Before(c, i, 0)
      invariant Inverse(fn, fc) && Inverse(bn, bc)
      invariant fc.Keys !! bc.Keys
      invariant forall k: nat :: k in fc || k in bc <==> k < next
    {
      for j := 0 to cols
        invariant next == 2 * (i * cols + j)
        invariant forall c :: c in fn <==> InBounds(grid, c) && Before(c, i, j)
        invariant forall c :: c in bn <==> InBounds(grid, c) && Before(c, i, j)
        invariant Inverse(fn, fc) && Inverse(bn, bc)
        invariant fc.Keys !! bc.Keys
        invariant forall k: nat :: k in fc || k in bc <==> k < next
      {
        var a := grid[i][j];
        assert a.loc == Coord(i, j) && a.loc !in fn && a.loc !in bn;
        assert next !in fc && next !in bc && next + 1 !in fc && next + 1 !in bc;
        InsertKeepsInverse(fn, fc, a.loc, next);
        InsertKeepsInverse(bn, bc, a.loc, next + 1);
        fn := fn[a.loc := next];
        fc := fc[next := a.loc];
        bn := bn[a.loc := next + 1];
        bc := bc[next + 1 := a.loc];
        next := next + 2;
      }
      assert (i + 1) * cols == i * cols + cols;
    }
    t := NodeTable(fn, fc, bn, bc, next);
  }

  /** Mapping a node back to its cell as the solver does: take the node's
      index, look it up in the forward coordinates first and in the backward
      ones otherwise. Because the two index sets are disjoint, this always
      yields the node's own cell. */
  function Resolve(t: NodeTable, n: Node): (c: Coord)
    requires n.at in t.forwardNodes && n.at in t.backwardNodes
    requires Inverse(t.forwardNodes, t.forwardCoords)
    requires Inverse(t.backwardNodes, t.backwardCoords)
    requires t.forwardCoords.Keys !! t.backwardCoords.Keys
    ensures c == n.at
  {
    var idx := if n.orient == Forward then t.forwardNodes[n.at] else t.backwardNodes[n.at];
    if idx in t.forwardCoords then t.forwardCoords[idx] else t.backwardCoords[idx]
  }
}

=== FILE: maze.dfy ===
/** The grid and its helper types: coordinates, the three closed
    enumerations of an arrow's attributes, their input tokens, the arrow
    record and the grid queries the solver relies on. */
module Maze {
  import opened Wrappers

  /** A signed (row, column) pair, zero-based. Signed so that a ray walk
      may step off the top or left edge and be caught by `InBounds`. */
  datatype Coord = Coord(row: int, col: int)

  /** Componentwise addition (the derived `Add`/`AddAssign` of the source). */
  function Add(a: Coord, b: Coord): Coord
  {
    Coord(a.row + b.row, a.col + b.col)
  }

  /** Componentwise negation, as the solver applies it for circles and for
      the backward pass. */
  function Neg(v: Coord): Coord
  {
    Coord(-1 * v.row, -1 * v.col)
  }

  /** `k` copies of `v`: the offset reached after `k` steps along `v`. */
  function Scale(k: int, v: Coord): Coord
  {
    Coord(k * v.row, k * v.col)
  }

  /** The shift applied to every reported coordinate to make it 1-based. */
  const One := Coord(1, 1)

  /** One more `+= vel` moves a ray from step `k` to step `k + 1`. */
  lemma StepAlongRay(c: Coord, v: Coord, k: int)
    ensures Add(Add(c, Scale(k, v)), v) == Add(c, Scale(k + 1, v))
    ensures Add(c, Scale(0, v)) == c
  {
    assert (k + 1) * v.row == k * v.row + v.row;
    assert (k + 1) * v.col == k * v.col + v.col;
  }

  /** Negating a vector and negating it again gives it back, and adding a
      vector to its negation is the zero step. */
  lemma NegInvolution(v: Coord)
    ensures Neg(Neg(v)) == v
    ensures Add(v, Neg(v)) == Coord(0, 0)
  {
  }

  datatype Color = Clear | Red | Blue

  /** The kind of an arrow: the target cell, a circle (reflector) arrow, or
      a plain arrow. The source names the last two `True` and `False`. */
  datatype Circle = Target | True | False

  datatype Direction = N | E | S | W | NE | SE | SW | NW

  /** The input token of each colour. `Clear` only occurs on the target
      line, whose placeholder is `X`. */
  function ColorToken(c: Color): string
  {
    match c
    case Clear => "X"
    case Red => "R"
    case Blue => "B"
  }

  function CircleToken(c: Circle): string
  {
    match c
    case Target => "X"
    case True => "C"
    case False => "N"
  }

  function DirectionToken(d: Direction): string
  {
    match d
    case N => "N"
    case E => "E"
    case S => "S"
    case W => "W"
    case NE => "NE"
    case SE => "SE"
    case SW => "SW"
    case NW => "NW"
  }

  /** `Color::from_str`: the inverse of `ColorToken` on the two colours an
      arrow may carry; every other token, the placeholder included, is
      rejected. */
  function ParseColor(s: string): (r: Option<Color>)
    ensures forall c :: r == Some(c) <==> c != Clear && s == ColorToken(c)
    ensures r != Some(Clear)
  {
    if s == "R" then Some(Red)
    else if s == "B" then Some(Blue)
    else None
  }

  /** `Circle::from_str`: the inverse of `CircleToken` on circle and plain
      arrows; it never yields `Target`. */
  function ParseCircle(s: string): (r: Option<Circle>)
    ensures forall c :: r == Some(c) <==> c != Target && s == CircleToken(c)
    ensures r != Some(Target)
  {
    if s == "C" then Some(True)
    else if s == "N" then Some(False)
    else None
  }

  /** `Direction::from_str`: the inverse of `DirectionToken` on all eight
      headings; any other token is rejected. */
  function ParseDirection(s: string): (r: Option<Direction>)
    ensures forall d :: r == Some(d) <==> s == DirectionToken(d)
  {
    if s == "N" then Some(N)
    else if s == "E" then Some(E)
    else if s == "S" then Some(S)
    else if s == "W" then Some(W)
    else if s == "NE" then Some(NE)
    else if s == "SE" then Some(SE)
    else if s == "SW" then Some(SW)
    else if s == "NW" then Some(NW)
    else None
  }

  /** Printing a value as its token and parsing it back is the identity. */
  lemma TokenRoundTrip(c: Color, k: Circle, d: Direction)
    ensures c != Clear ==> ParseColor(ColorToken(c)) == Some(c)
    ensures k != Target ==> ParseCircle(CircleToken(k)) == Some(k)
    ensures ParseDirection(DirectionToken(d)) == Some(d)
  {
  }

  /** One grid cell. `loc` is the cell's own coordinate. */
  datatype Arrow = Arrow(loc: Coord, color: Color, circle: Circle, direction: Direction)
  {
    predicate IsCircle(): (r: bool)
      ensures r <==> circle != Target && circle != False
    {
      circle == True
    }

    predicate IsTarget(): (r: bool)
      ensures r <==> circle != True && circle != False
    {
      circle == Target
    }
  }

  /** Every arrow is exactly one of: a circle arrow, the target, or a plain
      (`False`) arrow, which is neither. */
  lemma ArrowKindsExclusive(a: Arrow)
    ensures !(a.IsCircle() && a.IsTarget())
    ensures a.circle == False <==> !a.IsCircle() && !a.IsTarget()
  {
  }

  /** `Arrow::default()`: the cell every grid position holds before input
      overwrites it. It is a target arrow, so it never originates edges. */
  function DefaultArrow(): (a: Arrow)
    ensures a.IsTarget() && !a.IsCircle()
  {
    Arrow(Coord(0, 0), Clear, Target, N)
  }

  type Grid = seq<seq<Arrow>>

  /** A non-empty rectangular grid: the shape the solver indexes as
      `grid[0]` and `grid[i][j]` for `j < grid[0].len()`. */
  predicate IsGrid(grid: Grid)
  {
    && |grid| > 0
    && |grid[0]| > 0
    && forall i :: 0 <= i < |grid| ==> |grid[i]| == |grid[0]|
  }

  /** A grid whose every arrow records its own position; node lookups by
      `loc` and by walked coordinate then agree. */
  predicate WellFormed(grid: Grid)
  {
    && IsGrid(grid)
    && forall i, j :: 0 <= i < |grid| && 0 <= j < |grid[i]| ==> grid[i][j].loc == Coord(i, j)
  }

  /** `Input::in_bounds`: exactly the coordinates that name a cell of a
      rectangular grid. The row test comes first, so on an empty grid the
      answer is `false` without `grid[0]` being looked at. */
  predicate InBounds(grid: Grid, c: Coord): (r: bool)
    ensures |grid| == 0 ==> !r
    ensures IsGrid(grid) ==> (r <==> 0 <= c.row < |grid| && 0 <= c.col < |grid[c.row]|)
  {
    && c.row >= 0
    && c.col >= 0
    && c.row < |grid|
    && c.col < |grid[0]|
  }

  function CellAt(grid: Grid, c: Coord): Arrow
    requires IsGrid(grid) && InBounds(grid, c)
  {
    grid[c.row][c.col]
  }

  /** `Input::start`: the top-left cell, which precedes every cell of a
      grid in both coordinates. */
  function StartCoord(grid: Grid): (r: Coord)
    ensures IsGrid(grid) ==> InBounds(grid, r)
    ensures forall c :: InBounds(grid, c) ==> r.row <= c.row && r.col <= c.col
  {
    Coord(0, 0)
  }

  /** `Input::target`: the bottom-right cell, which follows every cell of a
      grid in both coordinates. It is a function of the grid's shape only,
      whichever cell carries `Target`. */
  function TargetCoord(grid: Grid): (r: Coord)
    requires |grid| > 0
    ensures IsGrid(grid) ==> InBounds(grid, r)
    ensures forall c :: InBounds(grid, c) ==> c.row <= r.row && c.col <= r.col
  {
    Coord(|grid| - 1, |grid[0]| - 1)
  }

  /** The goal does not follow the `Target` flag: two grids of one shape
      share the goal cell whatever their arrows are. */
  lemma TargetIgnoresFlag(g1: Grid, g2: Grid)
    requires |g1| == |g2| > 0 && |g1[0]| == |g2[0]|
    ensures TargetCoord(g1) == TargetCoord(g2)
  {
  }
}

=== FILE: search.dfy ===
/** Path search over a directed graph given as a list of edges. The
    original hands this to a best-first search whose edge costs and
    heuristic are all zero, so only its outcome is specified: some path from
    the start to a goal, or nothing when no goal is reachable. No claim is
    made about which path, or about its length. */
module Search {

  /** `p` is a non-empty walk along edges of the list. */
  predicate IsPath<T(==)>(edges: seq<(T, T)>, p: seq<T>)
  {
    && |p| > 0
    && forall i :: 0 <= i < |p| - 1 ==> (p[i], p[i + 1]) in edges
  }

  /** Some walk leads from `start` to a member of `goals`. */
  ghost predicate Reachable<T(!new)>(edges: seq<(T, T)>, start: T, goals: set<T>)
  {
    exists p :: IsPath(edges, p) && p[0] == start && p[|p| - 1] in goals
  }

  /** A set containing the start of a walk and closed under the edges
      contains the whole walk, its last node included. */
  lemma {:induction false} ClosedSetHoldsPath<T>(edges: seq<(T, T)>, s: set<T>, p: seq<T>)
    requires IsPath(edges, p) && p[0] in s
    requires forall e :: e in edges && e.0 in s ==> e.1 in s
    ensures p[|p| - 1] in s
  {
    if |p| > 1 {
      var q := p[..|p| - 1];
      assert IsPath(edges, q) by {
        forall i | 0 <= i < |q| - 1
          ensures (q[i], q[i + 1]) in edges
        {
          assert q[i] == p[i] && q[i + 1] == p[i + 1];
        }
      }
      ClosedSetHoldsPath(edges, s, q);
      var e := (p[|p| - 2], p[|p| - 1]);
      assert e in edges;
    }
  }

  lemma SubsetSize<T>(a: set<T>, b: set<T>)
    requires a <= b
    ensures |a| <= |b|
  {
    if a != {} {
      var x :| x in a;
      SubsetSize(a - {x}, b - {x});
    }
  }

  /** Every node reached so far is mapped to a walk from `start` to it. */
  ghost predicate Walks<T>(edges: seq<(T, T)>, start: T, paths: map<T, seq<T>>)
  {
    forall n :: n in paths ==>
      IsPath(edges, paths[n]) && paths[n][0] == start && paths[n][|paths[n]| - 1] == n
  }

  /** Extending a walk to `u` by an edge out of `u` gives a walk. */
  lemma ExtendWalk<T>(edges: seq<(T, T)>, walk: seq<T>, b: T)
    requires IsPath(edges, walk) && (walk[|walk| - 1], b) in edges
    ensures IsPath(edges, walk + [b])
  {
    var w := walk + [b];
    forall i | 0 <= i < |w| - 1
      ensures (w[i], w[i + 1]) in edges
    {
      if i < |w| - 2 {
        assert w[i] == walk[i] && w[i + 1] == walk[i + 1];
      }
    }
  }

  /** One expansion step of the search: scan the edge list for the
      successors of `u`, record a walk to each one not reached before and
      return those as `added`, to be queued. Stops early with a walk to the
      first goal it meets. */
  method Expand<T(==)>(edges: seq<(T, T)>, start: T, goals: set<T>, u: T,
                       paths: map<T, seq<T>>, ghost universe: set<T>)
    returns (paths': map<T, seq<T>>, added: seq<T>, found: seq<T>)
    requires u in paths && Walks(edges, start, paths)
    requires forall n :: n in paths ==> n !in goals
    requires paths.Keys <= universe && forall e :: e in edges ==> e.1 in universe
    ensures found != [] ==> IsPath(edges, found) && found[0] == start && found[|found| - 1] in goals
    ensures found == [] ==>
      && Walks(edges, start, paths')
      && (forall n :: n in paths' ==> n !in goals)
      && paths.Keys <= paths'.Keys <= universe
      && (forall e :: e in edges && e.0 == u ==> e.1 in paths')
      && (forall n :: n in paths' ==> n in paths || n in added)
      && (forall n :: n in added ==> n in paths')
      && (|paths'| > |paths| || (paths' == paths && added == []))
  {
    paths', added, found := paths, [], [];
    var k := 0;
    while k < |edges|
      invariant 0 <= k <= |edges|
      invariant Walks(edges, start, paths')
      invariant forall n :: n in paths' ==> n !in goals
      invariant paths.Keys <= paths'.Keys <= universe
      invariant forall i :: 0 <= i < k && edges[i].0 == u ==> edges[i].1 in paths'
      invariant forall n :: n in paths' ==> n in paths || n in added
      invariant forall n :: n in added ==> n in paths'
      invariant |paths'| > |paths| || (paths' == paths && added == [])
    {
      var (a, b) := edges[k];
      if a == u && b !in paths' {
        assert edges[k] in edges;
        ExtendWalk(edges, paths'[u], b);
        var walk := paths'[u] + [b];
        if b in goals {
          found := walk;
          return;
        }
        paths' := paths'[b := walk];
        added := added + [b];
      }
      k := k + 1;
    }
    forall e | e in edges && e.0 == u
      ensures e.1 in paths'
    {
      var i :| 0 <= i < |edges| && edges[i] == e;
    }
  }

  /** Breadth-first search remembering, for every node reached, one walk
      from the start to it. Returns a walk from `start` to a goal, or the
      empty sequence exactly when no goal is reachable. */
  method FindPath<T(==,!new)>(edges: seq<(T, T)>, start: T, goals: set<T>) returns (path: seq<T>)
    ensures path != [] ==> IsPath(edges, path) && path[0] == start && path[|path| - 1] in goals
    ensures path == [] <==> !Reachable(edges, start, goals)
  {
    if start in goals {
      path := [start];
      assert IsPath(edges, path);
      return;
    }
    var paths: map<T, seq<T>> := map[start := [start]];
    var queue := [start];
    ghost var done: set<T> := {};
    ghost var universe := (set e | e in edges :: e.1) + {start};
    while queue != []
      invariant start in paths && Walks(edges, start, paths)
      invariant forall n :: n in paths ==> n !in goals
      invariant paths.Keys <= universe
      invariant forall n :: n in queue ==> n in paths
      invariant done <= paths.Keys
      invariant forall n :: n in paths ==> n in done || n in queue
      invariant forall e :: e in edges && e.0 in done ==> e.1 in paths
      decreases |universe| - |paths|, |queue|
    {
      var u := queue[0];
      var paths', added, found := Expand(edges, start, goals, u, paths, universe);
      if found != [] {
        path := found;
        return;
      }
      SubsetSize(paths'.Keys, universe);
      assert forall n :: n in queue ==> n == u || n in queue[1..];
      queue := queue[1..] + added;
      paths := paths';
      done := done + {u};
    }
    path := [];
    forall p | IsPath(edges, p) && p[0] == start
      ensures p[|p| - 1] !in goals
    {
      ClosedSetHoldsPath(edges, paths.Keys, p);
    }
  }
}

=== FILE: solver.dfy ===
/** `Solver::solve`: build the node table and the edges, search from the
    start cell's forward node for either node of the goal cell, and report
    the walk as 1-based coordinates. */
module Solver {
  import opened Maze
  import opened Graph
  import Search

  /** The search starts at the forward node of `Input::start`. */
  function StartNode(grid: Grid): Node
  {
    Node(StartCoord(grid), Forward)
  }

  /** A goal is either node of `Input::target`, the bottom-right cell; a
      walk may finish in either orientation. */
  predicate IsGoal(grid: Grid, n: Node): (r: bool)
    requires |grid| > 0
    ensures IsGrid(grid) ==>
      (r <==> InBounds(grid, n.at) && forall c :: InBounds(grid, c) ==> c.row <= n.at.row && c.col <= n.at.col)
  {
    n.at == TargetCoord(grid)
  }

  /** A non-empty sequence of nodes, each joined to the next by an edge. */
  ghost predicate IsHopPath(grid: Grid, p: seq<Node>)
    requires IsGrid(grid)
  {
    && |p| > 0
    && forall i :: 0 <= i < |p| - 1 ==> Edge(grid, p[i], p[i + 1])
  }

  /** Some sequence of hops leads from the start node to a goal node. */
  ghost predicate GoalReachable(grid: Grid)
    requires IsGrid(grid)
  {
    exists p :: IsHopPath(grid, p) && p[0] == StartNode(grid) && IsGoal(grid, p[|p| - 1])
  }

  /** The reported form of a walk: each node's cell, shifted to 1-based. */
  function Shifted(p: seq<Node>): (r: seq<Coord>)
    ensures |r| == |p|
  {
    seq(|p|, i requires 0 <= i < |p| => Add(p[i].at, One))
  }

  /** Shifting back by (1, 1) recovers every node's cell from the report,
      so two walks over the same cells have the same report and no other. */
  lemma ShiftedUndo(p: seq<Node>, q: seq<Node>)
    ensures forall i :: 0 <= i < |p| ==> Add(Shifted(p)[i], Neg(One)) == p[i].at
    ensures Shifted(p) == Shifted(q) <==>
      |p| == |q| && forall i :: 0 <= i < |p| ==> p[i].at == q[i].at
  {
    if |p| == |q| && forall i :: 0 <= i < |p| ==> p[i].at == q[i].at {
      assert forall i :: 0 <= i < |p| ==> Shifted(p)[i] == Shifted(q)[i];
    }
  }

  /** Walks over an edge list that is exactly the edge relation are exactly
      the hop paths, and searching it for the two goal nodes answers
      `GoalReachable`. */
  lemma EdgeListPaths(grid: Grid, edges: seq<(Node, Node)>)
    requires IsGrid(grid)
    requires forall u, v :: (u, v) in edges <==> Edge(grid, u, v)
    ensures forall p :: Search.IsPath(edges, p) <==> IsHopPath(grid, p)
    ensures var t := TargetCoord(grid);
      (Search.Reachable(edges, StartNode(grid), {Node(t, Forward), Node(t, Backward)})
       <==> GoalReachable(grid))
  {
    var t := TargetCoord(grid);
    var goals := {Node(t, Forward), Node(t, Backward)};
    forall p
      ensures Search.IsPath(edges, p) <==> IsHopPath(grid, p)
    {
      if Search.IsPath(edges, p) {
        assert forall i :: 0 <= i < |p| - 1 ==> (p[i], p[i + 1]) in edges;
      }
      if IsHopPath(grid, p) {
        assert forall i :: 0 <= i < |p| - 1 ==> Edge(grid, p[i], p[i + 1]);
      }
    }
    if Search.Reachable(edges, StartNode(grid), goals) {
      var p: seq<Node> :| Search.IsPath(edges, p) && p[0] == StartNode(grid) && p[|p| - 1] in goals;
      assert IsHopPath(grid, p) && IsGoal(grid, p[|p| - 1]);
    }
    if GoalReachable(grid) {
      var p: seq<Node> :| IsHopPath(grid, p) && p[0] == StartNode(grid) && IsGoal(grid, p[|p| - 1]);
      assert Search.IsPath(edges, p);
      var last := p[|p| - 1];
      if last.orient == Forward {
        assert last == Node(t, Forward);
      } else {
        assert last == Node(t, Backward);
      }
    }
  }

  /** Every node of a hop path from the start lies in the grid. */
  lemma HopPathInBounds(grid: Grid, p: seq<Node>)
    requires IsGrid(grid) && IsHopPath(grid, p) && p[0] == StartNode(grid)
    ensures forall i :: 0 <= i < |p| ==> InBounds(grid, p[i].at)
  {
    forall i | 0 <= i < |p|
      ensures InBounds(grid, p[i].at)
    {
      if i > 0 {
        assert Edge(grid, p[i - 1], p[i]);
      }
    }
  }

  /** Mapping the found path back to coordinates through the node table,
      forward coordinates first, and shifting each by (1, 1) reports each
      node's own cell, 1-based. */
  method ReportPath(grid: Grid, table: NodeTable, path: seq<Node>) returns (r: seq<Coord>)
    requires IsGrid(grid) && ValidTable(grid, table)
    requires forall i :: 0 <= i < |path| ==> InBounds(grid, path[i].at)
    ensures r == Shifted(path)
  {
    r := [];
    for i := 0 to |path|
      invariant |r| == i
      invariant forall k :: 0 <= k < i ==> r[k] == Add(path[k].at, One)
    {
      r := r + [Add(Resolve(table, path[i]), One)];
    }
  }

  /** The search's promise about the edge list, restated about the grid:
      its report is empty exactly when no goal is reachable, and otherwise
      is a shifted hop path from (1, 1) to (rows, cols). */
  lemma SolveOutcome(grid: Grid, edges: seq<(Node, Node)>, path: seq<Node>, r: seq<Coord>)
    requires IsGrid(grid)
    requires forall u, v :: (u, v) in edges <==> Edge(grid, u, v)
    requires var t := TargetCoord(grid); var goals := {Node(t, Forward), Node(t, Backward)};
      && (path != [] ==> Search.IsPath(edges, path) && path[0] == StartNode(grid) && path[|path| - 1] in goals)
      && (path == [] <==> !Search.Reachable(edges, StartNode(grid), goals))
    requires r == Shifted(path)
    ensures r == [] <==> !GoalReachable(grid)
    ensures r != [] ==> r[0] == One && r[|r| - 1] == Coord(|grid|, |grid[0]|)
    ensures r != [] ==> exists p ::
      && IsHopPath(grid, p)
      && p[0] == StartNode(grid)
      && IsGoal(grid, p[|p| - 1])
      && r == Shifted(p)
  {
    EdgeListPaths(grid, edges);
    if path != [] {
      assert IsHopPath(grid, path);
      assert IsGoal(grid, path[|path| - 1]);
      assert r[0] == Add(path[0].at, One);
      assert r[|r| - 1] == Add(path[|path| - 1].at, One);
    }
  }

  /** The solver. The result is empty exactly when no goal node can be
      reached from the start node; otherwise it is a hop path from the
      start to a goal, each cell shifted by (1, 1), so it begins at (1, 1)
      and ends at (rows, cols). */
  method Solve(grid: Grid) returns (r: seq<Coord>)
    requires WellFormed(grid)
    ensures r == [] <==> !GoalReachable(grid)
    ensures r != [] ==> r[0] == One && r[|r| - 1] == Coord(|grid|, |grid[0]|)
    ensures r != [] ==> exists p ::
      && IsHopPath(grid, p)
      && p[0] == StartNode(grid)
      && IsGoal(grid, p[|p| - 1])
      && r == Shifted(p)
  {
    var table := CreateNodes(grid);
    var edges := BuildEdges(grid);
    var target := TargetCoord(grid);
    var start := Node(StartCoord(grid), Forward);
    var path := Search.FindPath(edges, start, {Node(target, Forward), Node(target, Backward)});
    EdgeListPaths(grid, edges);
    if path != [] {
      HopPathInBounds(grid, path);
    }
    r := ReportPath(grid, table, path);
    SolveOutcome(grid, edges, path, r);
  }

  /** The cells of a 1 x 2 grid whose second cell is the target. */
  function Pair(first: Arrow): Grid
  {
    [[first, Arrow(Coord(0, 1), Clear, Target, N)]]
  }

  /** Along a unit step, the only offset one or more steps away that stays
      inside one row and two columns is one step east. */
  lemma EastOnly(vel: Coord, k: int)
    requires IsUnit(vel) && k >= 1
    requires 0 <= Scale(k, vel).row < 1 && 0 <= Scale(k, vel).col < 2
    ensures vel.row == 0 && vel.col == 1 && k == 1
  {
    ScaleUnit(k, vel);
  }

  /** In a `Pair` grid every hop path from the start has at most one hop,
      onto the target and along a ray running east, since the target starts
      no ray. */
  lemma PairPaths(first: Arrow, p: seq<Node>)
    requires first.loc == Coord(0, 0)
    requires IsHopPath(Pair(first), p) && p[0] == StartNode(Pair(first))
    ensures |p| <= 2
    ensures |p| == 2 ==>
      && Edge(Pair(first), p[0], p[1])
      && p[1].at == Coord(0, 1)
      && PassVelocity(first, Forward) == Coord(0, 1)
  {
    var grid := Pair(first);
    if |p| >= 2 {
      assert Edge(grid, p[0], p[1]);
      var vel := PassVelocity(first, Forward);
      assert OnRay(Coord(0, 0), vel, p[1].at);
      OnRayBySteps(Coord(0, 0), vel, p[1].at);
      EastOnly(vel, RaySteps(Coord(0, 0), vel, p[1].at));
      if |p| >= 3 {
        NoEdgeFromTarget(grid, p[1], p[2]);
        assert false;
      }
    }
  }

  /** A `Pair` grid whose first arrow's ray in pass `pass` runs east has
      the one hop onto the target. */
  lemma PairEdge(first: Arrow, pass: Orientation)
    requires first.loc == Coord(0, 0) && !first.IsTarget() && first.color != Clear
    requires PassVelocity(first, pass) == Coord(0, 1)
    ensures Edge(Pair(first), Node(Coord(0, 0), pass), Node(Coord(0, 1), DestOrientation(first, pass)))
  {
    assert Add(Coord(0, 0), Scale(1, Coord(0, 1))) == Coord(0, 1);
  }

  /** In a `Pair` grid whose first arrow's forward ray runs east, the goal
      is reachable in one hop, landing in orientation `o`. */
  lemma PairReachable(first: Arrow, o: Orientation)
    requires first.loc == Coord(0, 0) && !first.IsTarget() && first.color != Clear
    requires PassVelocity(first, Forward) == Coord(0, 1)
    requires DestOrientation(first, Forward) == o
    ensures GoalReachable(Pair(first))
  {
    PairEdge(first, Forward);
    var hop := [Node(Coord(0, 0), Forward), Node(Coord(0, 1), o)];
    assert IsHopPath(Pair(first), hop);
    assert IsGoal(Pair(first), hop[1]);
  }

  /** What `Solve` reports for a `Pair` grid whose goal is reachable. */
  lemma PairReport(first: Arrow, p: seq<Node>)
    requires first.loc == Coord(0, 0)
    requires IsHopPath(Pair(first), p) && p[0] == StartNode(Pair(first))
    requires IsGoal(Pair(first), p[|p| - 1])
    ensures Shifted(p) == [Coord(1, 1), Coord(1, 2)]
  {
    PairPaths(first, p);
    assert |p| == 2;
    var r := Shifted(p);
    assert r[0] == Add(Coord(0, 0), One) && r[1] == Add(Coord(0, 1), One);
  }

  /** A plain red arrow pointing east, next to the target: one forward hop. */
  method SolveForwardHop() returns (r: seq<Coord>)
    ensures r == [Coord(1, 1), Coord(1, 2)]
  {
    var first := Arrow(Coord(0, 0), Red, False, E);
    var grid := Pair(first);
    PairReachable(first, Forward);
    r := Solve(grid);
    ghost var p: seq<Node> :| IsHopPath(grid, p) && p[0] == StartNode(grid) && IsGoal(grid, p[|p| - 1]) && r == Shifted(p);
    PairReport(first, p);
  }

  /** When the first arrow's forward ray does not run east it finds no
      cell: its only possible edge starts at its backward node, which the
      start cannot reach, so no hop path from the start ends on the goal. */
  lemma DeadEndUnreachable(first: Arrow)
    requires first.loc == Coord(0, 0)
    requires PassVelocity(first, Forward) != Coord(0, 1)
    ensures !GoalReachable(Pair(first))
  {
    var grid := Pair(first);
    forall p | IsHopPath(grid, p) && p[0] == StartNode(grid)
      ensures !IsGoal(grid, p[|p| - 1])
    {
      PairPaths(first, p);
    }
  }

  /** A plain arrow pointing west: its forward ray leaves the grid at once;
      its only edge starts at its backward node, which the start cannot
      reach, so the answer is empty. */
  method SolveDeadEnd() returns (r: seq<Coord>)
    ensures r == []
  {
    var first := Arrow(Coord(0, 0), Red, False, W);
    DeadEndUnreachable(first);
    r := Solve(Pair(first));
  }

  /** A circle arrow pointing west: the circle turns its ray east and lands
      in the backward orientation, so the target is reached at its backward
      node while its forward node is unreachable. */
  lemma CircleMissesForwardTarget(p: seq<Node>)
    requires var grid := Pair(Arrow(Coord(0, 0), Red, True, W));
      IsHopPath(grid, p) && p[0] == StartNode(grid)
    ensures p[|p| - 1] != Node(Coord(0, 1), Forward)
  {
    var first := Arrow(Coord(0, 0), Red, True, W);
    PairPaths(first, p);
  }

  /** The circle scenario still reports the hop onto the target: the
      search accepts the backward goal node. */
  method SolveCircleReversal() returns (r: seq<Coord>)
    ensures r == [Coord(1, 1), Coord(1, 2)]
  {
    var first := Arrow(Coord(0, 0), Red, True, W);
    var grid := Pair(first);
    PairReachable(first, Backward);
    r := Solve(grid);
    ghost var p: seq<Node> :| IsHopPath(grid, p) && p[0] == StartNode(grid) && IsGoal(grid, p[|p| - 1]) && r == Shifted(p);
    PairReport(first, p);
  }
}

=== FILE: wrappers.dfy ===
/** The optional result used where the solver's token parsers
    abort the run on malformed input. */
module Wrappers {

  /** `None` stands for the parse failure (the original aborts the run). */
  datatype Option<+T> = None | Some(value: T)
}
